=== FILE: README.md ===
# Portfolio content store, seeding and API routes — a Dafny model

This project models the server core of a single-page personal portfolio site.
The core is:

- the five-table content store: profile, skills, projects, learning goals and
  contact messages;
- the storage gateway that reads and appends rows;
- the first-run seeding routine;
- the five API route handlers.

It also models the few pure decisions the landing page makes from the API data.

The database becomes an immutable `Store` value. The store holds one `Table`
per entity, and a table is a sequence of rows in insertion order plus the next
value of that table's own `serial` sequence. Reads return rows in that order.
Every operation is a pure function from a store to a new store and a result.

Modules follow the TypeScript files. routes.ts gives two: `Seeding` for
`seedDatabase` and `Routes` for the handlers `registerRoutes` installs.
`Text` collects the JavaScript string built-ins the core relies on:

- `Schema` (`schema.dfy`) — row shapes (`Row<F>`: store-assigned `id` plus the
  other columns), insert shapes and column defaults. Insert shapes never carry
  an `id`. A nullable column in an insert is `ColumnInput`: omitted (the
  column default applies), explicit null, or a value. The message insert is
  exactly name, email and message.
- `Storage` (`storage.dfy`) — the `IStorage` gateway: `GetProfile`,
  `GetSkills`, `GetProjects`, `GetGoals`, and the five `Create*` operations.
  `Step` and `Run` model the gateway as one interface over any sequence of
  calls.
- `Seeding` (`seed.dfy`) — the fixed seed content and `seedDatabase`, written
  two ways. `Seed` is a functional description. `SeedDatabase` is a method
  with `seedDatabase`'s three loops, proved to end in the same store.
- `Routes` (`routes.dfy`) — the GET profile, skills, projects and goals
  handlers and the POST messages handler, plus `Serve` over a sequence of
  requests.
- `Home` (`home.dfy`) — the landing page's loading and absent-profile gate,
  the skill icon choice, the goal badge choice, and the tech-stack tags.
- `Text` (`text.dfy`) — no source file of its own: JavaScript `split` on one
  character, `join`, `trim` (the ECMAScript WhiteSpace and LineTerminator
  code points) and the decimal text of a number.

The message validator is the `api.messages.create.input` schema, which is not
part of this model. It is a function parameter `P -> Validation`: for a body,
it returns either the parsed `InsertMessage` or a non-empty ordered list of
issues. Each issue has a path and a message. Nothing is assumed about which
bodies it accepts. In particular it is not assumed to reject empty strings.

Two facts about the code shape the model:

- The profile and message columns are only `notNull`, so "required" means
  present, not non-empty. An empty string is a valid value.
- `seedDatabase` has no rollback: a failing insert's exception propagates,
  and the rows inserted before it remain. The in-memory store never fails, so
  this does not arise in the model.

Identifiers are `serial` columns, so each table has its own counter starting
at 1. The model does the same. The order in which seeding touches the four
tables therefore cannot be observed in the keys. `SeedDatabase` still
performs the creates in `seedDatabase`'s order.

## Model

| member | source | states |
|---|---|---|
| Storage.EmptyStoreValid | schema.ts:8 | a new database has valid keys in every table: each `serial` sequence starts at 1 and no row exists |
| Storage.GetSkills | storage.ts:42-44 | the skills read returns the whole skills table, every row, in insertion order |
| Storage.GetProjects | storage.ts:52-54 | the projects read returns the whole projects table, every row, in insertion order |
| Storage.GetGoals | storage.ts:62-64 | the goals read returns the whole learning-goals table, every row, in insertion order |
| Schema.Resolve | schema.ts:19 | an insert's nullable column is null exactly when the insert says null, or says nothing and the column has no default; a given value is kept; an omitted one takes the default |
| Schema.SkillRow | schema.ts:16-20 | a skill insert keeps its name and a given category; its category is null exactly when null is sent, and "General" when none is supplied |
| Schema.ProjectRow | schema.ts:22-28 | a project insert keeps title, description and techStack; its link is non-null exactly when one is given, since `link` has no default |
| Schema.GoalRow | schema.ts:30-34 | a goal insert keeps its goal text and a given status; its status is null exactly when null is sent, and "In Progress" when none is supplied |
| Schema.MessageRow | schema.ts:36-50 | a message row carries `createdAt` "NOW()", and its name, email and message give back exactly the insert it came from |
| Storage.GetProfile | storage.ts:31-34 | returns nothing exactly when the profile table is empty, otherwise its first row |
| Storage.CreateProfile | storage.ts:36-39 | appends exactly the given profile under the table's next key, returns that row, leaves the other four tables unchanged, and the key is one no earlier row has |
| Storage.CreateSkill | storage.ts:46-49 | appends one skill row under a fresh key and returns it; an omitted category is stored as "General", an explicit null stays null, a given category is kept; other tables unchanged |
| Storage.CreateProject | storage.ts:56-59 | appends one project row with the given title, description and techStack; link is non-null exactly when one was given; fresh key; other tables unchanged |
| Storage.CreateGoal | storage.ts:66-69 | appends one goal row under a fresh key; an omitted status is stored as "In Progress"; other tables unchanged |
| Storage.CreateMessage | storage.ts:72-75 | appends one message row holding exactly the given name, email and message, with createdAt set to the column default "NOW()" and a fresh positive key; other tables unchanged |
| Storage.Step | storage.ts:8-27 | a read call leaves the store identical; a create adds exactly one row to its own table; every call leaves the other tables identical, keeps every existing row and preserves key validity |
| Storage.RunExtends | storage.ts:29-76 | after any sequence of gateway calls, every table still starts with exactly its earlier rows: nothing is updated or removed |
| Storage.RunRowCount | storage.ts:29-76 | after any sequence of calls, each table has grown by exactly the number of creates on it |
| Storage.RunValid | storage.ts:36-75 | any sequence of calls keeps every table's keys positive, strictly increasing and below the next key |
| Storage.AppendedValid | schema.ts:8 | appending rows under the next serial keys keeps a table's keys valid |
| Storage.InsertAll | routes.ts:26-28 | inserting values one by one appends one row per value, in order, under consecutive keys following the table's, with earlier rows kept |
| Storage.FirstProfileStable | storage.ts:31-34 | once a profile exists, the profile read returns that same first row whatever is created afterwards |
| Storage.ListsOnlyGrow | storage.ts:42-64 | a skills, projects or goals listing is a prefix, in the same order, of any later listing |
| Seeding.Seed | routes.ts:7-56 | with a profile present the store is returned unchanged; without one, the seeded profile, skills, projects and goals are appended in list order under consecutive fresh keys, messages are untouched, and afterwards a profile exists |
| Seeding.SeedDatabase | routes.ts:26-54 | `seedDatabase`'s check-then-three-loops procedure ends in exactly the store `Seed` describes |
| Seeding.SeedIdempotent | routes.ts:8-9 | seeding twice gives the same store as seeding once |
| Seeding.SeedFreshStore | routes.ts:10-54 | seeding a new database yields exactly 1 profile, 6 skills, 2 projects, 4 goals and 0 messages, keyed 1, 2, 3, … in list order, and the profile read finds the seeded profile |
| Seeding.SeededGoalsInProgress | routes.ts:52-54 | every goal row seeding adds has status "In Progress" |
| Routes.ProfileRoute | routes.ts:66-70 | 404 with "Profile not found" exactly when the profile table is empty, otherwise 200 with the first profile row |
| Routes.MessageRoute | routes.ts:91-105 | a rejected body gets 400 with the first issue's message and its path joined with '.', and the store is unchanged; an accepted body gets 201 with the created row, which is the one row appended to messages, and the other tables are unchanged; on a store with valid keys the new key is positive and differs from every earlier message's, and the keys stay valid |
| Routes.Handle | routes.ts:65-105 | the GET routes leave the store unchanged and the list routes answer 200 with the whole table; only an accepted post changes the store, by one message row; valid keys stay valid |
| Routes.ServeValid | routes.ts:65-105 | serving any sequence of requests keeps every table's keys positive, increasing and below the next key |
| Routes.AcceptedMessageKeyFresh | routes.ts:91-95 | after seeding a new database and serving any requests, an accepted message gets 201 with a positive key no earlier message has |
| Routes.SegmentText | routes.ts:100 | a key segment renders as the key; an index renders as at least one decimal digit, with no leading zero, that reads back as the index |
| Routes.PathText | routes.ts:100 | for a non-empty path whose keys hold no '.', splitting the joined text on '.' gives back each segment's text in order, indices included; the empty path renders as "" |
| Routes.ServeOnlyAddsMessages | routes.ts:65-105 | over any sequence of requests, the profile, skills, projects and goals tables stay identical and messages grows by exactly the number of accepted posts |
| Routes.FieldNamesPath | routes.ts:100 | for a path of keys without '.', splitting the reported field on '.' gives back the keys |
| Routes.MissingNameReportsName | routes.ts:97-101 | a rejection whose first issue is at key "name" answers 400 with field "name" and that issue's message, writing nothing |
| Routes.StartupServesSeededProfile | routes.ts:62-70 | on a new database the profile route answers 404 before seeding and 200 with the seeded profile under key 1 after it; the skills route then lists 6 skills |
| Home.PageView | Home.tsx:53-64 | the loading view exactly when any of the four queries is loading; otherwise nothing exactly when the profile is absent, else the page for that profile |
| Home.IconFor | Home.tsx:158-159 | Code2 exactly for category "Language", Server exactly for "Tech", ShieldCheck for anything else, including null |
| Home.BadgeFor | Home.tsx:263-274 | the amber outline badge exactly for status "In Progress", the default badge for any other status, including null |
| Home.DefaultCategoryIcon | schema.ts:19 | a skill inserted without a category gets the ShieldCheck icon |
| Home.DefaultStatusBadge | schema.ts:33 | a goal inserted without a status gets the amber outline badge |
| Home.SeededSkillIcons | Home.tsx:158-159 | the six skills seeding adds get, in list order, ShieldCheck four times and then Code2 twice; none gets Server |
| Home.SeededGoalBadges | Home.tsx:263-274 | all four goals seeding adds get the amber outline badge |
| Home.Tags | Home.tsx:222-228 | no tag shown for a project starts or ends with white space |
| Home.TagsOfStack | Home.tsx:222-228 | a stack yields one tag more than it has commas; each tag is its piece trimmed and holds no comma; the untrimmed pieces rejoined with ',' are the stored string |
| Home.TagsOfCommaSpaced | Home.tsx:222-228 | a stack written as clean words separated by ", " displays exactly those words |
| Home.CalculatorStackTags | routes.ts:39 | "HTML, CSS, JavaScript" displays as HTML, CSS, JavaScript |
| Home.PortfolioStackTags | routes.ts:34 | "HTML, CSS" displays as HTML, CSS |
| Text.Split | Home.tsx:222 | a split always yields at least one piece, even for the empty string |
| Text.JoinSeparators | routes.ts:100 | joining separator-free parts puts exactly one separator between neighbours and none elsewhere |
| Text.SplitCount | Home.tsx:222 | splitting on a character gives exactly one more piece than the character's occurrences |
| Text.SplitPiecesFree | Home.tsx:222 | no piece of a split contains the separator |
| Text.JoinSplit | Home.tsx:222 | joining the pieces of a split with the separator gives back the original string |
| Text.SplitJoin | routes.ts:100 | joining separator-free pieces and splitting again gives back the pieces |
| Text.Trim | Home.tsx:228 | the result is a contiguous middle of the input with only space characters removed on either side, and it neither starts nor ends with one |
| Text.DecimalRoundTrip | routes.ts:100 | the decimal text a numeric path segment gets reads back as that number |

## Left out

- Database access: drizzle queries, the connection and `.returning()` are
  replaced by the in-memory store. Store faults, and so a seeding insert that
  fails part-way, cannot occur in the model.
- The 32-bit range of `serial` keys: the model's counters are unbounded.
- What the database makes of the `createdAt` default. The model stores the
  declared default text "NOW()" as an opaque string.
- The validator's rules. They live in the shared route definitions, which are
  not part of this model, and appear only as a parameter.
- Express plumbing, the HTTP server, async/await, and concurrent or
  re-entrant seeding. Each request is handled to completion before the next.
- The data-fetching hooks behind the page's four queries. `Home.PageView`
  takes their loading flags and profile data as input.
- All rendering, animation, styling, form wiring and scrolling, including the
  navigation bar and section headings.
- Row order. The selects in storage.ts have no `ORDER BY`, so SQL does not
  guarantee the order rows come back in, nor which row `.limit(1)` returns.
  The model assumes insertion order. `Storage.GetProfile`,
  `Storage.FirstProfileStable` and `Storage.ListsOnlyGrow` rest on that.
- `Text.IsJsSpace` lists the space separators of Unicode 15.1. A character a
  later Unicode version adds to that category is not included.

=== FILE: home.dfy ===
/**
 The decisions the landing page makes from API data: whether to show the
 loading view, nothing, or the page; which icon a skill gets; which badge a
 learning goal gets; and how a project's stack string becomes tags.
 */
module Home {
  import opened Schema
  import opened Storage
  import opened Seeding
  import Text

  /** The four queries the page waits on, and the profile data once it has arrived. */
  datatype Queries = Queries(
    profileLoading: bool,
    skillsLoading: bool,
    projectsLoading: bool,
    goalsLoading: bool,
    profile: Option<Profile>)

  datatype View = LoadingView | NoView | PortfolioView(profile: Profile)

  /** The page's gate: any query still loading shows the loading view; a missing profile renders nothing. */
  function PageView(q: Queries): (v: View)
    ensures v == LoadingView <==> (q.profileLoading || q.skillsLoading || q.projectsLoading || q.goalsLoading)
    ensures v == NoView <==> (!v.LoadingView? && q.profile.None?)
    ensures v.PortfolioView? <==> (!v.LoadingView? && q.profile.Some?)
    ensures v.PortfolioView? ==> q.profile == Some(v.profile)
  {
    if q.profileLoading || q.skillsLoading || q.projectsLoading || q.goalsLoading then LoadingView
    else if q.profile.None? then NoView
    else PortfolioView(q.profile.value)
  }

  datatype SkillIcon = Code2 | Server | ShieldCheck

  /** The icon on a skill card, chosen by exact comparison of the category. */
  function IconFor(category: Option<string>): (icon: SkillIcon)
    ensures icon == Code2 <==> category == Some("Language")
    ensures icon == Server <==> category == Some("Tech")
  {
    if category == Some("Language") then Code2
    else if category == Some("Tech") then Server
    else ShieldCheck
  }

  /** The goal badge: the outline variant in amber, or the default variant in the primary colour. */
  datatype GoalBadge = OutlineAmber | DefaultPrimary

  function BadgeFor(status: Option<string>): (b: GoalBadge)
    ensures b == OutlineAmber <==> status == Some("In Progress")
  {
    if status == Some("In Progress") then OutlineAmber else DefaultPrimary
  }

  /** A skill inserted without a category is stored as "General" and so gets the ShieldCheck icon. */
  lemma DefaultCategoryIcon(s: Store, n: NewSkill)
    requires n.category.Omitted?
    ensures IconFor(CreateSkill(s, n).1.fields.category) == ShieldCheck
  {
  }

  /** A goal inserted without a status is stored as "In Progress" and so gets the amber outline badge. */
  lemma DefaultStatusBadge(s: Store, n: NewGoal)
    requires n.status.Omitted?
    ensures BadgeFor(CreateGoal(s, n).1.fields.status) == OutlineAmber
  {
  }

  function Icons(skills: seq<Skill>): seq<SkillIcon>
  {
    seq(|skills|, k requires 0 <= k < |skills| => IconFor(skills[k].fields.category))
  }

  function Badges(goals: seq<LearningGoal>): seq<GoalBadge>
  {
    seq(|goals|, k requires 0 <= k < |goals| => BadgeFor(goals[k].fields.status))
  }

  /**
   The skills seeding adds get, in list order, ShieldCheck four times and then
   Code2 twice (the two "Language" skills); none gets Server.
   */
  lemma SeededSkillIcons(s: Store)
    requires GetProfile(s).None?
    ensures Icons(Seed(s).skills.rows[|s.skills.rows|..]) == [ShieldCheck, ShieldCheck, ShieldCheck, ShieldCheck, Code2, Code2]
  {
    var added := Seed(s).skills.rows[|s.skills.rows|..];
    assert |added| == 6;
    forall k | 0 <= k < 6
      ensures added[k].fields == SkillRow(SkillList[k])
    {
      assert added[k] == Seed(s).skills.rows[|s.skills.rows| + k];
    }
    var icons := Icons(added);
    assert icons[0] == ShieldCheck && icons[1] == ShieldCheck && icons[2] == ShieldCheck;
    assert icons[3] == ShieldCheck && icons[4] == Code2 && icons[5] == Code2;
  }

  /** Every goal seeding adds gets the amber outline badge. */
  lemma SeededGoalBadges(s: Store)
    requires GetProfile(s).None?
    ensures Badges(Seed(s).goals.rows[|s.goals.rows|..]) == [OutlineAmber, OutlineAmber, OutlineAmber, OutlineAmber]
  {
    var added := Seed(s).goals.rows[|s.goals.rows|..];
    assert |added| == 4;
    forall k | 0 <= k < 4
      ensures added[k].fields.status == Some(GoalStatusDefault)
    {
      assert added[k] == Seed(s).goals.rows[|s.goals.rows| + k];
      assert added[k].fields == GoalRow(GoalInsert(GoalList[k]));
    }
  }

  /**
   The tags shown for a project: its stack split on ',' with each piece
   trimmed, so no tag starts or ends with white space.
   */
  function Tags(techStack: string): (r: seq<string>)
    ensures forall i :: 0 <= i < |r| && |r[i]| > 0 ==> !Text.IsJsSpace(r[i][0]) && !Text.IsJsSpace(r[i][|r[i]| - 1])
  {
    var pieces := Text.Split(techStack, ',');
    seq(|pieces|, i requires 0 <= i < |pieces| => Text.Trim(pieces[i]))
  }

  /**
   A stack string yields one tag more than it has commas; each tag is its
   piece with the surrounding white space removed, so no tag holds a comma or
   starts or ends with white space; and the untrimmed pieces rejoined with ','
   are the stored string itself.
   */
  lemma TagsOfStack(techStack: string)
    ensures |Tags(techStack)| == Text.Count(techStack, ',') + 1
    ensures forall i :: 0 <= i < |Tags(techStack)| ==> Tags(techStack)[i] == Text.Trim(Text.Split(techStack, ',')[i])
    ensures forall i :: 0 <= i < |Tags(techStack)| ==> ',' !in Tags(techStack)[i]
    ensures Text.Join(Text.Split(techStack, ','), ',') == techStack
  {
    var pieces := Text.Split(techStack, ',');
    Text.SplitPiecesFree(techStack, ',');
    Text.JoinSplit(techStack, ',');
    forall i | 0 <= i < |pieces|
      ensures ',' !in Tags(techStack)[i]
    {
      Text.TrimKeepsOut(pieces[i], ',');
    }
  }

  /** The stack written as words separated by ", " */
  function CommaSpaced(first: string, rest: seq<string>): string
  {
    Text.Join([first] + seq(|rest|, i requires 0 <= i < |rest| => [' '] + rest[i]), ',')
  }

  /**
   A stack written as clean words separated by ", " — the convention the
   seeded projects follow — displays exactly those words as its tags.
   */
  lemma TagsOfCommaSpaced(first: string, rest: seq<string>)
    requires |first| > 0 && !Text.IsJsSpace(first[0]) && !Text.IsJsSpace(first[|first| - 1]) && ',' !in first
    requires forall i :: 0 <= i < |rest| ==>
      |rest[i]| > 0 && !Text.IsJsSpace(rest[i][0]) && !Text.IsJsSpace(rest[i][|rest[i]| - 1]) && ',' !in rest[i]
    ensures Tags(CommaSpaced(first, rest)) == [first] + rest
  {
    var pieces := [first] + seq(|rest|, i requires 0 <= i < |rest| => [' '] + rest[i]);
    Text.SplitJoin(pieces, ',');
    Text.TrimClean(first);
    forall i | 0 <= i < |rest|
      ensures Text.Trim(pieces[i + 1]) == rest[i]
    {
      Text.TrimSpacedWord(' ', rest[i]);
    }
  }

  /** The second seeded stack, "HTML, CSS, JavaScript", shows the tags HTML, CSS and JavaScript. */
  lemma CalculatorStackTags()
    ensures Tags("HTML, CSS, JavaScript") == ["HTML", "CSS", "JavaScript"]
  {
    var rest := ["CSS", "JavaScript"];
    var spaced := seq(|rest|, i requires 0 <= i < |rest| => [' '] + rest[i]);
    assert spaced[0] == " CSS" && spaced[1] == " JavaScript";
    assert spaced == [" CSS", " JavaScript"];
    assert spaced[1..] == [" JavaScript"];
    assert Text.Join(spaced, ',') == " CSS" + [','] + " JavaScript";
    assert CommaSpaced("HTML", rest) == "HTML, CSS, JavaScript";
    TagsOfCommaSpaced("HTML", rest);
  }

  /** The first seeded stack, "HTML, CSS", shows the tags HTML and CSS. */
  lemma PortfolioStackTags()
    ensures Tags("HTML, CSS") == ["HTML", "CSS"]
  {
    var rest := ["CSS"];
    var spaced := seq(|rest|, i requires 0 <= i < |rest| => [' '] + rest[i]);
    assert |spaced| == 1 && spaced[0] == " CSS";
    assert spaced == [" CSS"];
    assert (["HTML"] + spaced)[1..] == spaced;
    assert Text.Join(spaced, ',') == " CSS";
    assert Text.Join(["HTML"] + spaced, ',') == "HTML" + [','] + " CSS";
    assert CommaSpaced("HTML", rest) == "HTML, CSS";
    TagsOfCommaSpaced("HTML", rest);
  }
}

=== FILE: routes.dfy ===
/**
 The five API handlers, each a function from the store and a request to the
 store afterwards and the response. The message validator is not part of this
 model. It is a parameter: a function from the untyped request body to either
 the parsed insert or a non-empty ordered list of issues.
 */
module Routes {
  import opened Schema
  import opened Storage
  import opened Seeding
  import Text

  /** One step of an issue's path: an object key or an array index. */
  datatype PathSegment = Key(name: string) | Index(position: nat)

  /** One validation issue: where it is and what it says. */
  datatype Issue = Issue(path: seq<PathSegment>, message: string)

  /**
   What the validator says about a body. A rejection always carries at least
   one issue: the first one, then the rest in reported order.
   */
  datatype Validation = Parsed(value: InsertMessage) | Rejected(first: Issue, rest: seq<Issue>)

  datatype Request<P> = GetProfileRequest | ListSkills | ListProjects | ListGoals | PostMessage(body: P)

  /** A JSON response body. */
  datatype Body =
    | ProfileBody(profile: Profile)
    | SkillsBody(skills: seq<Skill>)
    | ProjectsBody(projects: seq<Project>)
    | GoalsBody(goals: seq<LearningGoal>)
    | MessageBody(created: Message)
    | ErrorBody(message: string, field: Option<string>)

  datatype Response = Response(status: int, body: Body)

  const ProfileNotFound: string := "Profile not found"

  /**
   How JavaScript renders one path segment when the path is joined: a key as
   it is, an index as its decimal digits without leading zeros, which read
   back as the index.
   */
  function SegmentText(seg: PathSegment): (r: string)
    ensures seg.Key? ==> r == seg.name
    ensures seg.Index? ==>
      && |r| >= 1 && (|r| > 1 ==> r[0] != '0')
      && (forall k :: 0 <= k < |r| ==> Text.IsDigit(r[k]))
      && Text.DecimalValue(r) == seg.position
  {
    match seg
    case Key(name) => name
    case Index(position) => Text.DecimalRoundTrip(position); Text.Decimal(position)
  }

  /**
   `path.join('.')`. The empty path, as an issue at the root of the body has,
   renders as "". When no key holds a '.', splitting the text of a non-empty
   path on '.' gives back the rendered segments one by one.
   */
  function PathText(path: seq<PathSegment>): (r: string)
    ensures |path| == 0 ==> r == ""
    ensures |path| >= 1 && (forall i :: 0 <= i < |path| ==> path[i].Key? ==> '.' !in path[i].name) ==>
      Text.Split(r, '.') == seq(|path|, i requires 0 <= i < |path| => SegmentText(path[i]))
  {
    var texts := seq(|path|, i requires 0 <= i < |path| => SegmentText(path[i]));
    if |path| >= 1 && (forall i :: 0 <= i < |path| ==> path[i].Key? ==> '.' !in path[i].name) then
      assert forall i :: 0 <= i < |texts| ==> '.' !in texts[i] by {
        forall i | 0 <= i < |texts|
          ensures '.' !in texts[i]
        {
          if path[i].Index? {
            assert !Text.IsDigit('.');
          }
        }
      }
      Text.SplitJoin(texts, '.');
      Text.Join(texts, '.')
    else
      Text.Join(texts, '.')
  }

  /** GET profile: 404 with "Profile not found" exactly when there is no profile row, else 200 with the first row. */
  function ProfileRoute(s: Store): (r: Response)
    ensures r.status == 404 <==> |s.profile.rows| == 0
    ensures r.status == 404 ==> r.body == ErrorBody(ProfileNotFound, None)
    ensures r.status != 404 ==> r == Response(200, ProfileBody(s.profile.rows[0]))
  {
    match GetProfile(s)
    case None => Response(404, ErrorBody(ProfileNotFound, None))
    case Some(p) => Response(200, ProfileBody(p))
  }

  /**
   POST messages: validate first, persist second. A rejected body gets 400
   with the first issue's message and its dotted path, and the store is left
   as it was. An accepted body gets 201 with the created row, which is
   appended to the messages table and nowhere else.
   */
  function MessageRoute<P>(s: Store, body: P, validate: P -> Validation): (r: (Store, Response))
    ensures validate(body).Rejected? ==>
      && r.0 == s
      && r.1.status == 400
      && r.1.body == ErrorBody(validate(body).first.message, Some(PathText(validate(body).first.path)))
    ensures validate(body).Parsed? ==>
      && r.1.status == 201
      && r.1.body.MessageBody?
      && r.1.body.created.fields == MessageRow(validate(body).value)
      && r.0.messages.rows == s.messages.rows + [r.1.body.created]
      && SameExcept(s, r.0, MessagesTable)
    ensures validate(body).Parsed? && Valid(s) ==>
      && r.1.body.created.id >= 1
      && forall i :: 0 <= i < |s.messages.rows| ==> s.messages.rows[i].id != r.1.body.created.id
    ensures Valid(s) ==> Valid(r.0)
  {
    match validate(body)
    case Rejected(first, _) => (s, Response(400, ErrorBody(first.message, Some(PathText(first.path)))))
    case Parsed(input) =>
      var (s', created) := CreateMessage(s, input);
      (s', Response(201, MessageBody(created)))
  }

  /** Dispatch one request. Only an accepted message post changes the store, and only its messages table. */
  function Handle<P>(s: Store, req: Request<P>, validate: P -> Validation): (r: (Store, Response))
    ensures !req.PostMessage? ==> r.0 == s
    ensures req.GetProfileRequest? ==> r.1 == ProfileRoute(s)
    ensures req.ListSkills? ==> r.1.status == 200 && r.1.body.SkillsBody? && r.1.body.skills == s.skills.rows
    ensures req.ListProjects? ==> r.1.status == 200 && r.1.body.ProjectsBody? && r.1.body.projects == s.projects.rows
    ensures req.ListGoals? ==> r.1.status == 200 && r.1.body.GoalsBody? && r.1.body.goals == s.goals.rows
    ensures req.PostMessage? ==> r == MessageRoute(s, req.body, validate)
    ensures SameExcept(s, r.0, MessagesTable)
    ensures |r.0.messages.rows| == |s.messages.rows| + (if Accepted(req, validate) then 1 else 0)
    ensures Valid(s) ==> Valid(r.0)
  {
    match req
    case GetProfileRequest => (s, ProfileRoute(s))
    case ListSkills => (s, Response(200, SkillsBody(GetSkills(s))))
    case ListProjects => (s, Response(200, ProjectsBody(GetProjects(s))))
    case ListGoals => (s, Response(200, GoalsBody(GetGoals(s))))
    case PostMessage(body) => MessageRoute(s, body, validate)
  }

  predicate Accepted<P>(req: Request<P>, validate: P -> Validation)
  {
    req.PostMessage? && validate(req.body).Parsed?
  }

  /** Serving requests one after another. */
  function Serve<P>(s: Store, reqs: seq<Request<P>>, validate: P -> Validation): Store
    decreases |reqs|
  {
    if |reqs| == 0 then s else Serve(Handle(s, reqs[0], validate).0, reqs[1..], validate)
  }

  function AcceptedCount<P>(reqs: seq<Request<P>>, validate: P -> Validation): nat
  {
    if |reqs| == 0 then 0 else (if Accepted(reqs[0], validate) then 1 else 0) + AcceptedCount(reqs[1..], validate)
  }

  /**
   However many requests are served, the profile, skills, projects and goals
   tables stay exactly as seeding left them, and the messages table gains one
   row per accepted post and none for a rejected one.
   */
  lemma {:induction false} ServeOnlyAddsMessages<P>(s: Store, reqs: seq<Request<P>>, validate: P -> Validation)
    ensures SameExcept(s, Serve(s, reqs, validate), MessagesTable)
    ensures |Serve(s, reqs, validate).messages.rows| == |s.messages.rows| + AcceptedCount(reqs, validate)
    decreases |reqs|
  {
    if |reqs| > 0 {
      ServeOnlyAddsMessages(Handle(s, reqs[0], validate).0, reqs[1..], validate);
    }
  }

  /** Serving any sequence of requests keeps every table's keys valid. */
  lemma {:induction false} ServeValid<P>(s: Store, reqs: seq<Request<P>>, validate: P -> Validation)
    requires Valid(s)
    ensures Valid(Serve(s, reqs, validate))
    decreases |reqs|
  {
    if |reqs| > 0 {
      ServeValid(Handle(s, reqs[0], validate).0, reqs[1..], validate);
    }
  }

  /**
   On a server started against a new database, seeded and then serving any
   requests, an accepted message is answered 201 with a positive key that no
   earlier message has.
   */
  lemma AcceptedMessageKeyFresh<P>(reqs: seq<Request<P>>, body: P, validate: P -> Validation)
    requires validate(body).Parsed?
    ensures var s := Serve(Seed(EmptyStore()), reqs, validate);
      var r := Handle(s, PostMessage(body), validate).1;
      && r.status == 201
      && r.body.created.id >= 1
      && forall i :: 0 <= i < |s.messages.rows| ==> s.messages.rows[i].id != r.body.created.id
  {
    EmptyStoreValid();
    ServeValid(Seed(EmptyStore()), reqs, validate);
  }

  /**
   A validation issue at a path of object keys that contain no '.' can be read
   back from the response's `field`: splitting it on '.' gives the keys.
   */
  lemma FieldNamesPath(path: seq<PathSegment>)
    requires |path| >= 1
    requires forall i :: 0 <= i < |path| ==> path[i].Key? && '.' !in path[i].name
    ensures Text.Split(PathText(path), '.') == seq(|path|, i requires 0 <= i < |path| => path[i].name)
  {
    var names := seq(|path|, i requires 0 <= i < |path| => SegmentText(path[i]));
    Text.SplitJoin(names, '.');
  }

  /** A rejection at the top-level key "name" reports field "name" with the validator's own message. */
  lemma MissingNameReportsName<P>(s: Store, body: P, validate: P -> Validation, msg: string, rest: seq<Issue>)
    requires validate(body) == Rejected(Issue([Key("name")], msg), rest)
    ensures Handle(s, PostMessage(body), validate) == (s, Response(400, ErrorBody(msg, Some("name"))))
  {
  }

  /**
   Startup against a new database: before seeding the profile endpoint
   answers 404; after seeding it answers 200 with the seeded profile under
   key 1, and the skills endpoint lists the six seeded skills.
   */
  lemma StartupServesSeededProfile<P>(validate: P -> Validation)
    ensures Handle(EmptyStore(), GetProfileRequest, validate).1 == Response(404, ErrorBody("Profile not found", None))
    ensures Handle(Seed(EmptyStore()), GetProfileRequest, validate).1 == Response(200, ProfileBody(Row(1, SeedProfile)))
    ensures Handle(Seed(EmptyStore()), ListSkills, validate).1.body.skills == Seed(EmptyStore()).skills.rows
    ensures |Handle(Seed(EmptyStore()), ListSkills, validate).1.body.skills| == 6
  {
  }
}

=== FILE: schema.dfy ===
/**
 The five tables of the portfolio store — profile, skills, projects,
 learning_goals and messages — as row shapes, together with what an insert
 into each carries and the column defaults the store fills in.

 Every table has a `serial` primary key `id`; inserts never carry it. A row is
 therefore the store-assigned key plus the non-key columns (`Row`), and each
 insert shape lists only non-key columns.
 */
module Schema {

  datatype Option<+T> = None | Some(value: T)

  /** A stored row: the serial key the store assigned and the other columns. */
  datatype Row<+F> = Row(id: int, fields: F)

  /** profile: five `text not null` columns. Not null means present, not non-empty. */
  datatype ProfileFields = ProfileFields(name: string, title: string, bio: string, email: string, github: string)

  /** skills: `category` is nullable with default "General". */
  datatype SkillFields = SkillFields(name: string, category: Option<string>)

  /** projects: `link` is nullable with no default. */
  datatype ProjectFields = ProjectFields(title: string, description: string, techStack: string, link: Option<string>)

  /** learning_goals: `status` is nullable with default "In Progress". */
  datatype GoalFields = GoalFields(goal: string, status: Option<string>)

  /** messages: `createdAt` is nullable with default "NOW()". */
  datatype MessageFields = MessageFields(name: string, email: string, message: string, createdAt: Option<string>)

  type Profile = Row<ProfileFields>
  type Skill = Row<SkillFields>
  type Project = Row<ProjectFields>
  type LearningGoal = Row<GoalFields>
  type Message = Row<MessageFields>

  const SkillCategoryDefault: string := "General"
  const GoalStatusDefault: string := "In Progress"
  const MessageCreatedAtDefault: string := "NOW()"

  /**
   What an insert says about one nullable column: nothing (the column's default
   applies), an explicit null, or a value.
   */
  datatype ColumnInput = Omitted | Null | Given(text: string)

  /** The profile insert: every column is required, so it is the row's fields. */
  type NewProfile = ProfileFields

  datatype NewSkill = NewSkill(name: string, category: ColumnInput)

  datatype NewProject = NewProject(title: string, description: string, techStack: string, link: ColumnInput)

  datatype NewGoal = NewGoal(goal: string, status: ColumnInput)

  /** The message insert: exactly name, email and message; `id` and `createdAt` are left to the store. */
  datatype InsertMessage = InsertMessage(name: string, email: string, message: string)

  /**
   The value a nullable column receives from an insert, given the column's
   default: the column is null exactly when the insert says null, or says
   nothing and the column has no default.
   */
  function Resolve(input: ColumnInput, columnDefault: Option<string>): (r: Option<string>)
    ensures r.None? <==> (input.Null? || (input.Omitted? && columnDefault.None?))
    ensures input.Given? ==> r == Some(input.text)
    ensures input.Omitted? ==> r == columnDefault
  {
    match input
    case Omitted => columnDefault
    case Null => None
    case Given(v) => Some(v)
  }

  /** A skill insert's row: the name and a given category as given; a category that is not supplied becomes "General". */
  function SkillRow(n: NewSkill): (f: SkillFields)
    ensures f.name == n.name
    ensures f.category.None? <==> n.category.Null?
    ensures n.category.Omitted? ==> f.category == Some(SkillCategoryDefault)
    ensures n.category.Given? ==> f.category == Some(n.category.text)
  {
    SkillFields(n.name, Resolve(n.category, Some(SkillCategoryDefault)))
  }

  /** A project insert's row: `link` has no default, so leaving it out and sending null store the same row. */
  function ProjectRow(n: NewProject): (f: ProjectFields)
    ensures f.title == n.title && f.description == n.description && f.techStack == n.techStack
    ensures f.link.Some? <==> n.link.Given?
    ensures n.link.Given? ==> f.link.value == n.link.text
  {
    ProjectFields(n.title, n.description, n.techStack, Resolve(n.link, None))
  }

  /** A goal insert's row: the goal and a given status as given; a status that is not supplied becomes "In Progress". */
  function GoalRow(n: NewGoal): (f: GoalFields)
    ensures f.goal == n.goal
    ensures f.status.None? <==> n.status.Null?
    ensures n.status.Omitted? ==> f.status == Some(GoalStatusDefault)
    ensures n.status.Given? ==> f.status == Some(n.status.text)
  {
    GoalFields(n.goal, Resolve(n.status, Some(GoalStatusDefault)))
  }

  /** A message insert's row: the three given columns and the `createdAt` default, which the insert cannot set. */
  function MessageRow(n: InsertMessage): (f: MessageFields)
    ensures f.createdAt == Some(MessageCreatedAtDefault)
    ensures MessageInsertOf(f) == n
  {
    MessageFields(n.name, n.email, n.message, Some(MessageCreatedAtDefault))
  }

  /** The insert a message row came from: its columns other than `id` and `createdAt`. */
  function MessageInsertOf(f: MessageFields): InsertMessage
  {
    InsertMessage(f.name, f.email, f.message)
  }
}

=== FILE: seed.dfy ===
/**
 First-run seeding. At startup the routine asks for the profile; when there is
 one it writes nothing at all. When there is none it creates the fixed
 profile, then the fixed skills, projects and goals one at a time, each list
 in its own order.
 */
module Seeding {
  import opened Schema
  import opened Storage

  const SeedProfile: NewProfile := ProfileFields(
    "In Dex",
    "Aspiring IT & Cybersecurity Student",
    "Hi, I\U{2019}m In Dex. I am interested in IT and cybersecurity and plan to study in Japan. "
      + "I have passed JLPT N4 and I am preparing for JLPT N3. "
      + "I enjoy learning technology, problem-solving, and languages.",
    "yourname@email.com",
    "github.com/yourusername")

  const SkillList: seq<NewSkill> := [
    NewSkill("HTML & CSS", Given("Basic")),
    NewSkill("JavaScript", Given("Beginner")),
    NewSkill("Linux Basics", Given("System")),
    NewSkill("Networking Fundamentals", Given("System")),
    NewSkill("English Communication", Given("Language")),
    NewSkill("Japanese (JLPT N3 level)", Given("Language"))
  ]

  /** The projects carry no link, so the nullable `link` column stays null. */
  const ProjectList: seq<NewProject> := [
    NewProject(
      "Personal Portfolio Website",
      "A simple portfolio website built using HTML and CSS to introduce myself and show my learning journey.",
      "HTML, CSS",
      Omitted),
    NewProject(
      "Basic Calculator",
      "A beginner-friendly calculator made with JavaScript to practice logic and UI.",
      "HTML, CSS, JavaScript",
      Omitted)
  ]

  const GoalList: seq<string> := [
    "JLPT N3 preparation",
    "EJU Mathematics (Course 2)",
    "Cybersecurity fundamentals",
    "Linux command line practice"
  ]

  /** Each goal is inserted as `{ goal }` alone: the status column is left to its default. */
  function GoalInsert(goal: string): NewGoal
  {
    NewGoal(goal, Omitted)
  }

  /** The skill rows' non-key columns, in list order. */
  function SeedSkills(): seq<SkillFields>
  {
    seq(|SkillList|, i requires 0 <= i < |SkillList| => SkillRow(SkillList[i]))
  }

  function SeedProjects(): seq<ProjectFields>
  {
    seq(|ProjectList|, i requires 0 <= i < |ProjectList| => ProjectRow(ProjectList[i]))
  }

  function SeedGoals(): seq<GoalFields>
  {
    seq(|GoalList|, i requires 0 <= i < |GoalList| => GoalRow(GoalInsert(GoalList[i])))
  }

  /**
   `seedDatabase`. A store that has a profile comes back untouched. A store
   without one gains exactly the seeded profile, and the seeded skills,
   projects and goals appended in list order under consecutive fresh keys;
   the messages table is never written.
   */
  function Seed(s: Store): (r: Store)
    ensures GetProfile(s).Some? ==> r == s
    ensures GetProfile(s).None? ==>
      && Appended(s.profile, r.profile, [SeedProfile])
      && Appended(s.skills, r.skills, SeedSkills())
      && Appended(s.projects, r.projects, SeedProjects())
      && Appended(s.goals, r.goals, SeedGoals())
      && r.messages == s.messages
    ensures GetProfile(r).Some?
    ensures Valid(s) ==> Valid(r)
  {
    if GetProfile(s).Some? then s
    else
      var s1 := CreateProfile(s, SeedProfile).0;
      var skills := InsertAll(s1.skills, SeedSkills());
      var projects := InsertAll(s1.projects, SeedProjects());
      var goals := InsertAll(s1.goals, SeedGoals());
      AppendedValidIf(s1.skills, skills, SeedSkills());
      AppendedValidIf(s1.projects, projects, SeedProjects());
      AppendedValidIf(s1.goals, goals, SeedGoals());
      s1.(skills := skills, projects := projects, goals := goals)
  }

  /**
   The routine as `seedDatabase` runs it: the profile check, one create for the
   profile, then one loop of single creates per list. It ends in the store
   `Seed` describes.
   */
  method SeedDatabase(s: Store) returns (r: Store)
    ensures r == Seed(s)
  {
    var existing := GetProfile(s);
    if existing.Some? {
      return s;
    }
    r := CreateProfile(s, SeedProfile).0;
    ghost var start := r;

    var i := 0;
    while i < |SkillList|
      invariant 0 <= i <= |SkillList|
      invariant r == start.(skills := r.skills)
      invariant InsertAll(r.skills, SeedSkills()[i..]) == InsertAll(start.skills, SeedSkills())
    {
      var rest := SeedSkills()[i..];
      assert rest[0] == SkillRow(SkillList[i]) && rest[1..] == SeedSkills()[i + 1..];
      r := CreateSkill(r, SkillList[i]).0;
      i := i + 1;
    }
    assert SeedSkills()[i..] == [];
    start := r;

    i := 0;
    while i < |ProjectList|
      invariant 0 <= i <= |ProjectList|
      invariant r == start.(projects := r.projects)
      invariant InsertAll(r.projects, SeedProjects()[i..]) == InsertAll(start.projects, SeedProjects())
    {
      var rest := SeedProjects()[i..];
      assert rest[0] == ProjectRow(ProjectList[i]) && rest[1..] == SeedProjects()[i + 1..];
      r := CreateProject(r, ProjectList[i]).0;
      i := i + 1;
    }
    assert SeedProjects()[i..] == [];
    start := r;

    i := 0;
    while i < |GoalList|
      invariant 0 <= i <= |GoalList|
      invariant r == start.(goals := r.goals)
      invariant InsertAll(r.goals, SeedGoals()[i..]) == InsertAll(start.goals, SeedGoals())
    {
      var rest := SeedGoals()[i..];
      assert rest[0] == GoalRow(GoalInsert(GoalList[i])) && rest[1..] == SeedGoals()[i + 1..];
      r := CreateGoal(r, GoalInsert(GoalList[i])).0;
      i := i + 1;
    }
    assert SeedGoals()[i..] == [];
  }

  /** Seeding twice gives the same store as seeding once. */
  lemma SeedIdempotent(s: Store)
    ensures Seed(Seed(s)) == Seed(s)
  {
  }

  /** `rows` are the values `fs` in order, keyed 1, 2, 3, … */
  ghost predicate KeyedFromOne<F>(rows: seq<Row<F>>, fs: seq<F>)
  {
    |rows| == |fs| && forall k :: 0 <= k < |fs| ==> rows[k] == Row(k + 1, fs[k])
  }

  /**
   Seeding a brand-new database leaves exactly one profile, six skills, two
   projects, four goals and no messages, each table keyed 1, 2, 3, … in list
   order, and the profile read then finds the seeded profile.
   */
  lemma SeedFreshStore()
    ensures |Seed(EmptyStore()).profile.rows| == 1
    ensures |Seed(EmptyStore()).skills.rows| == 6
    ensures |Seed(EmptyStore()).projects.rows| == 2
    ensures |Seed(EmptyStore()).goals.rows| == 4
    ensures |Seed(EmptyStore()).messages.rows| == 0
    ensures GetProfile(Seed(EmptyStore())) == Some(Row(1, SeedProfile))
    ensures KeyedFromOne(GetSkills(Seed(EmptyStore())), SeedSkills())
    ensures KeyedFromOne(GetProjects(Seed(EmptyStore())), SeedProjects())
    ensures KeyedFromOne(GetGoals(Seed(EmptyStore())), SeedGoals())
  {
  }

  /** Every goal row seeding adds has status "In Progress", since only the goal text is supplied. */
  lemma SeededGoalsInProgress(s: Store)
    requires GetProfile(s).None?
    ensures forall k :: |s.goals.rows| <= k < |Seed(s).goals.rows| ==>
      Seed(s).goals.rows[k].fields.status == Some("In Progress")
  {
    var r := Seed(s);
    forall k | |s.goals.rows| <= k < |r.goals.rows|
      ensures r.goals.rows[k].fields.status == Some("In Progress")
    {
      assert r.goals.rows[|s.goals.rows| + (k - |s.goals.rows|)].fields == SeedGoals()[k - |s.goals.rows|];
    }
  }
}

=== FILE: storage.dfy ===
/**
 The storage gateway over an in-memory store. Each table is an append-only
 sequence of rows with its own serial counter (the next key the table's
 sequence hands out). Reads return a table's rows in insertion order, which
 the model fixes although the selects carry no ORDER BY; each create appends
 exactly one row to its own table; nothing updates or deletes.
 */
module Storage {
  import opened Schema

  /** One serial-keyed table: its rows in insertion order and the next key its sequence will give. */
  datatype Table<F> = Table(rows: seq<Row<F>>, nextId: int)
  {
    /** Serial keys start at 1, strictly increase in insertion order and stay below the next key. */
    ghost predicate Valid()
    {
      && 1 <= nextId
      && (forall i :: 0 <= i < |rows| ==> 1 <= rows[i].id < nextId)
      && (forall i, j :: 0 <= i < j < |rows| ==> rows[i].id < rows[j].id)
    }

    /** `insert(table).values(f).returning()`: the new row, keyed by the next serial value. */
    function Insert(f: F): (r: (Table<F>, Row<F>))
      ensures Appended(this, r.0, [f])
      ensures r.0.rows[|rows|] == r.1
    {
      var row := Row(nextId, f);
      (Table(rows + [row], nextId + 1), row)
    }
  }

  function EmptyTable<F>(): Table<F>
  {
    Table([], 1)
  }

  /**
   `t'` is `t` with one new row per element of `fs`, in order, keyed by the
   consecutive serial values that follow `t`'s, and every old row kept as it was.
   */
  ghost predicate Appended<F>(t: Table<F>, t': Table<F>, fs: seq<F>)
  {
    && |t'.rows| == |t.rows| + |fs|
    && t'.rows[..|t.rows|] == t.rows
    && t'.nextId == t.nextId + |fs|
    && forall k :: 0 <= k < |fs| ==> t'.rows[|t.rows| + k] == Row(t.nextId + k, fs[k])
  }

  /** Appending to a valid table keeps its keys valid: positive, increasing, below the next key. */
  lemma AppendedValid<F>(t: Table<F>, t': Table<F>, fs: seq<F>)
    requires t.Valid()
    requires Appended(t, t', fs)
    ensures t'.Valid()
  {
    forall i | 0 <= i < |t'.rows|
      ensures 1 <= t'.rows[i].id < t'.nextId
    {
      if i < |t.rows| {
        assert t'.rows[i] == t.rows[i];
      } else {
        assert t'.rows[i] == Row(t.nextId + (i - |t.rows|), fs[i - |t.rows|]);
      }
    }
    forall i, j | 0 <= i < j < |t'.rows|
      ensures t'.rows[i].id < t'.rows[j].id
    {
      if j < |t.rows| {
        assert t'.rows[i] == t.rows[i] && t'.rows[j] == t.rows[j];
      } else if i < |t.rows| {
        assert t'.rows[i] == t.rows[i];
        assert t'.rows[j] == Row(t.nextId + (j - |t.rows|), fs[j - |t.rows|]);
      } else {
        assert t'.rows[i] == Row(t.nextId + (i - |t.rows|), fs[i - |t.rows|]);
        assert t'.rows[j] == Row(t.nextId + (j - |t.rows|), fs[j - |t.rows|]);
      }
    }
  }

  /** Inserting the values `fs` one after another, as a loop of single creates does. */
  function InsertAll<F>(t: Table<F>, fs: seq<F>): (r: Table<F>)
    ensures Appended(t, r, fs)
    decreases |fs|
  {
    if |fs| == 0 then t
    else
      var t1 := t.Insert(fs[0]).0;
      var r := InsertAll(t1, fs[1..]);
      assert r.rows[..|t.rows|] == r.rows[..|t1.rows|][..|t.rows|];
      forall k | 1 <= k < |fs|
        ensures r.rows[|t.rows| + k] == Row(t.nextId + k, fs[k])
      {
        assert r.rows[|t.rows| + k] == r.rows[|t1.rows| + (k - 1)];
        assert fs[k] == fs[1..][k - 1];
      }
      r
  }

  /** The whole store: one table per entity. */
  datatype Store = Store(
    profile: Table<ProfileFields>,
    skills: Table<SkillFields>,
    projects: Table<ProjectFields>,
    goals: Table<GoalFields>,
    messages: Table<MessageFields>)

  /** A freshly created database: five empty tables whose sequences start at 1. */
  function EmptyStore(): Store
  {
    Store(EmptyTable(), EmptyTable(), EmptyTable(), EmptyTable(), EmptyTable())
  }

  ghost predicate Valid(s: Store)
  {
    s.profile.Valid() && s.skills.Valid() && s.projects.Valid() && s.goals.Valid() && s.messages.Valid()
  }

  /** A freshly created database has valid keys: every sequence starts at 1 and no row exists yet. */
  lemma EmptyStoreValid()
    ensures Valid(EmptyStore())
  {
  }

  datatype TableName = ProfileTable | SkillsTable | ProjectsTable | GoalsTable | MessagesTable

  /** Every table other than `t` is identical in `s` and `s'`. */
  predicate SameExcept(s: Store, s': Store, t: TableName)
  {
    && (t != ProfileTable ==> s'.profile == s.profile)
    && (t != SkillsTable ==> s'.skills == s.skills)
    && (t != ProjectsTable ==> s'.projects == s.projects)
    && (t != GoalsTable ==> s'.goals == s.goals)
    && (t != MessagesTable ==> s'.messages == s.messages)
  }

  function RowCount(s: Store, t: TableName): nat
  {
    match t
    case ProfileTable => |s.profile.rows|
    case SkillsTable => |s.skills.rows|
    case ProjectsTable => |s.projects.rows|
    case GoalsTable => |s.goals.rows|
    case MessagesTable => |s.messages.rows|
  }

  /** The rows of `t` are a prefix of the rows of `t'`, and the sequence never went back. */
  ghost predicate Grows<F>(t: Table<F>, t': Table<F>)
  {
    |t.rows| <= |t'.rows| && t'.rows[..|t.rows|] == t.rows && t.nextId <= t'.nextId
  }

  /** Every table of `s'` starts with the rows of the same table of `s`. */
  ghost predicate Extends(s: Store, s': Store)
  {
    && Grows(s.profile, s'.profile)
    && Grows(s.skills, s'.skills)
    && Grows(s.projects, s'.projects)
    && Grows(s.goals, s'.goals)
    && Grows(s.messages, s'.messages)
  }

  lemma GrowsTransitive<F>(a: Table<F>, b: Table<F>, c: Table<F>)
    requires Grows(a, b) && Grows(b, c)
    ensures Grows(a, c)
  {
  }

  // === Gateway operations ===

  /** `getProfile`: the first profile row, or nothing when the table is empty. */
  function GetProfile(s: Store): (r: Option<Profile>)
    ensures r.None? <==> |s.profile.rows| == 0
    ensures r.Some? ==> r.value == s.profile.rows[0]
  {
    if |s.profile.rows| == 0 then None else Some(s.profile.rows[0])
  }

  /** `getSkills`: every skill row, in stored order. */
  function GetSkills(s: Store): (r: seq<Skill>)
    ensures r == s.skills.rows
  {
    s.skills.rows
  }

  /** `getProjects`: every project row, in stored order. */
  function GetProjects(s: Store): (r: seq<Project>)
    ensures r == s.projects.rows
  {
    s.projects.rows
  }

  /** `getGoals`: every learning-goal row, in stored order. */
  function GetGoals(s: Store): (r: seq<LearningGoal>)
    ensures r == s.goals.rows
  {
    s.goals.rows
  }

  /** `createProfile`: appends the given profile under a fresh key and returns the stored row. */
  function CreateProfile(s: Store, p: NewProfile): (r: (Store, Profile))
    ensures Appended(s.profile, r.0.profile, [p])
    ensures r.1 == Row(s.profile.nextId, p) && r.1 == r.0.profile.rows[|s.profile.rows|]
    ensures SameExcept(s, r.0, ProfileTable)
    ensures Valid(s) ==> Valid(r.0)
    ensures Valid(s) ==> forall i :: 0 <= i < |s.profile.rows| ==> s.profile.rows[i].id != r.1.id
  {
    var (t, row) := s.profile.Insert(p);
    AppendedValidIf(s.profile, t, [p]);
    (s.(profile := t), row)
  }

  /**
   `createSkill`: appends one skill row under a fresh key and returns it. An
   omitted category becomes "General"; an explicit null stays null.
   */
  function CreateSkill(s: Store, n: NewSkill): (r: (Store, Skill))
    ensures Appended(s.skills, r.0.skills, [SkillRow(n)])
    ensures r.1 == r.0.skills.rows[|s.skills.rows|] && r.1.id == s.skills.nextId
    ensures r.1.fields.name == n.name
    ensures n.category.Omitted? ==> r.1.fields.category == Some("General")
    ensures n.category.Null? ==> r.1.fields.category.None?
    ensures n.category.Given? ==> r.1.fields.category == Some(n.category.text)
    ensures SameExcept(s, r.0, SkillsTable)
    ensures Valid(s) ==> Valid(r.0)
    ensures Valid(s) ==> forall i :: 0 <= i < |s.skills.rows| ==> s.skills.rows[i].id != r.1.id
  {
    var (t, row) := s.skills.Insert(SkillRow(n));
    AppendedValidIf(s.skills, t, [SkillRow(n)]);
    (s.(skills := t), row)
  }

  /** `createProject`: appends one project row under a fresh key and returns it; a link that is not given is null. */
  function CreateProject(s: Store, n: NewProject): (r: (Store, Project))
    ensures Appended(s.projects, r.0.projects, [ProjectRow(n)])
    ensures r.1 == r.0.projects.rows[|s.projects.rows|] && r.1.id == s.projects.nextId
    ensures r.1.fields.title == n.title && r.1.fields.description == n.description
    ensures r.1.fields.techStack == n.techStack
    ensures r.1.fields.link.Some? <==> n.link.Given?
    ensures n.link.Given? ==> r.1.fields.link.value == n.link.text
    ensures SameExcept(s, r.0, ProjectsTable)
    ensures Valid(s) ==> Valid(r.0)
    ensures Valid(s) ==> forall i :: 0 <= i < |s.projects.rows| ==> s.projects.rows[i].id != r.1.id
  {
    var (t, row) := s.projects.Insert(ProjectRow(n));
    AppendedValidIf(s.projects, t, [ProjectRow(n)]);
    (s.(projects := t), row)
  }

  /** `createGoal`: appends one learning-goal row under a fresh key; an omitted status becomes "In Progress". */
  function CreateGoal(s: Store, n: NewGoal): (r: (Store, LearningGoal))
    ensures Appended(s.goals, r.0.goals, [GoalRow(n)])
    ensures r.1 == r.0.goals.rows[|s.goals.rows|] && r.1.id == s.goals.nextId
    ensures r.1.fields.goal == n.goal
    ensures n.status.Omitted? ==> r.1.fields.status == Some("In Progress")
    ensures n.status.Null? ==> r.1.fields.status.None?
    ensures n.status.Given? ==> r.1.fields.status == Some(n.status.text)
    ensures SameExcept(s, r.0, GoalsTable)
    ensures Valid(s) ==> Valid(r.0)
    ensures Valid(s) ==> forall i :: 0 <= i < |s.goals.rows| ==> s.goals.rows[i].id != r.1.id
  {
    var (t, row) := s.goals.Insert(GoalRow(n));
    AppendedValidIf(s.goals, t, [GoalRow(n)]);
    (s.(goals := t), row)
  }

  /**
   `createMessage`: appends one message row holding exactly the given name,
   email and message, with a fresh key and the `createdAt` column default.
   */
  function CreateMessage(s: Store, m: InsertMessage): (r: (Store, Message))
    ensures Appended(s.messages, r.0.messages, [r.1.fields])
    ensures r.1 == r.0.messages.rows[|s.messages.rows|] && r.1.id == s.messages.nextId
    ensures r.1.fields == MessageFields(m.name, m.email, m.message, Some("NOW()"))
    ensures Valid(s) ==> r.1.id >= 1
    ensures SameExcept(s, r.0, MessagesTable)
    ensures Valid(s) ==> Valid(r.0)
    ensures Valid(s) ==> forall i :: 0 <= i < |s.messages.rows| ==> s.messages.rows[i].id != r.1.id
  {
    var (t, row) := s.messages.Insert(MessageRow(m));
    AppendedValidIf(s.messages, t, [MessageRow(m)]);
    (s.(messages := t), row)
  }

  /** `AppendedValid` for callers that do not yet know whether `t` is valid. */
  lemma AppendedValidIf<F>(t: Table<F>, t': Table<F>, fs: seq<F>)
    requires Appended(t, t', fs)
    ensures t.Valid() ==> t'.Valid()
  {
    if t.Valid() {
      AppendedValid(t, t', fs);
    }
  }

  // === The gateway as one interface ===

  /** A call on the `IStorage` interface. */
  datatype Call =
    | GetProfileCall
    | CreateProfileCall(profile: NewProfile)
    | GetSkillsCall
    | CreateSkillCall(skill: NewSkill)
    | GetProjectsCall
    | CreateProjectCall(project: NewProject)
    | GetGoalsCall
    | CreateGoalCall(goal: NewGoal)
    | CreateMessageCall(message: InsertMessage)
  {
    predicate IsRead()
    {
      GetProfileCall? || GetSkillsCall? || GetProjectsCall? || GetGoalsCall?
    }

    /** The table the call reads or writes. */
    function Target(): TableName
    {
      match this
      case GetProfileCall | CreateProfileCall(_) => ProfileTable
      case GetSkillsCall | CreateSkillCall(_) => SkillsTable
      case GetProjectsCall | CreateProjectCall(_) => ProjectsTable
      case GetGoalsCall | CreateGoalCall(_) => GoalsTable
      case CreateMessageCall(_) => MessagesTable
    }
  }

  /** What a call resolves to. */
  datatype Reply =
    | ProfileFound(found: Option<Profile>)
    | SkillRows(skills: seq<Skill>)
    | ProjectRows(projects: seq<Project>)
    | GoalRows(goals: seq<LearningGoal>)
    | ProfileCreated(profile: Profile)
    | SkillCreated(skill: Skill)
    | ProjectCreated(project: Project)
    | GoalCreated(goal: LearningGoal)
    | MessageCreated(message: Message)

  /**
   One gateway call. Reads leave the store as it was; a create adds exactly one
   row to its own table, keeps every existing row, and leaves the other four
   tables alone.
   */
  function Step(s: Store, c: Call): (r: (Store, Reply))
    ensures c.IsRead() ==> r.0 == s
    ensures !c.IsRead() ==> RowCount(r.0, c.Target()) == RowCount(s, c.Target()) + 1
    ensures SameExcept(s, r.0, c.Target())
    ensures Extends(s, r.0)
    ensures Valid(s) ==> Valid(r.0)
  {
    match c
    case GetProfileCall => (s, ProfileFound(GetProfile(s)))
    case GetSkillsCall => (s, SkillRows(GetSkills(s)))
    case GetProjectsCall => (s, ProjectRows(GetProjects(s)))
    case GetGoalsCall => (s, GoalRows(GetGoals(s)))
    case CreateProfileCall(p) => var (s', row) := CreateProfile(s, p); (s', ProfileCreated(row))
    case CreateSkillCall(n) => var (s', row) := CreateSkill(s, n); (s', SkillCreated(row))
    case CreateProjectCall(n) => var (s', row) := CreateProject(s, n); (s', ProjectCreated(row))
    case CreateGoalCall(n) => var (s', row) := CreateGoal(s, n); (s', GoalCreated(row))
    case CreateMessageCall(m) => var (s', row) := CreateMessage(s, m); (s', MessageCreated(row))
  }

  /** The store after a sequence of calls, one after another. */
  function Run(s: Store, calls: seq<Call>): Store
    decreases |calls|
  {
    if |calls| == 0 then s else Run(Step(s, calls[0]).0, calls[1..])
  }

  /** How many of `calls` are creates on table `t`. */
  function WritesTo(calls: seq<Call>, t: TableName): nat
  {
    if |calls| == 0 then 0
    else (if !calls[0].IsRead() && calls[0].Target() == t then 1 else 0) + WritesTo(calls[1..], t)
  }

  /** Across any sequence of calls, tables only grow: no row is ever changed or removed. */
  lemma {:induction false} RunExtends(s: Store, calls: seq<Call>)
    ensures Extends(s, Run(s, calls))
    decreases |calls|
  {
    if |calls| > 0 {
      var s1 := Step(s, calls[0]).0;
      RunExtends(s1, calls[1..]);
      var s2 := Run(s1, calls[1..]);
      GrowsTransitive(s.profile, s1.profile, s2.profile);
      GrowsTransitive(s.skills, s1.skills, s2.skills);
      GrowsTransitive(s.projects, s1.projects, s2.projects);
      GrowsTransitive(s.goals, s1.goals, s2.goals);
      GrowsTransitive(s.messages, s1.messages, s2.messages);
    } else {
      assert s.profile.rows[..|s.profile.rows|] == s.profile.rows;
      assert s.skills.rows[..|s.skills.rows|] == s.skills.rows;
      assert s.projects.rows[..|s.projects.rows|] == s.projects.rows;
      assert s.goals.rows[..|s.goals.rows|] == s.goals.rows;
      assert s.messages.rows[..|s.messages.rows|] == s.messages.rows;
    }
  }

  /** Across any sequence of calls, each table gains exactly one row per create on it. */
  lemma {:induction false} RunRowCount(s: Store, calls: seq<Call>, t: TableName)
    ensures RowCount(Run(s, calls), t) == RowCount(s, t) + WritesTo(calls, t)
    decreases |calls|
  {
    if |calls| > 0 {
      RunRowCount(Step(s, calls[0]).0, calls[1..], t);
    }
  }

  /** Any sequence of calls keeps the serial keys of every table valid. */
  lemma {:induction false} RunValid(s: Store, calls: seq<Call>)
    requires Valid(s)
    ensures Valid(Run(s, calls))
    decreases |calls|
  {
    if |calls| > 0 {
      RunValid(Step(s, calls[0]).0, calls[1..]);
    }
  }

  /** Once a profile exists, `getProfile` keeps returning that same first row, whatever is created later. */
  lemma FirstProfileStable(s: Store, calls: seq<Call>)
    requires GetProfile(s).Some?
    ensures GetProfile(Run(s, calls)) == GetProfile(s)
  {
    RunExtends(s, calls);
    var s' := Run(s, calls);
    assert s'.profile.rows[..|s.profile.rows|] == s.profile.rows;
    assert s'.profile.rows[0] == s'.profile.rows[..|s.profile.rows|][0];
  }

  /**
   The list reads only ever see rows added at the end: whatever calls come
   later, an earlier listing is a prefix of a later one, in the same order.
   */
  lemma ListsOnlyGrow(s: Store, calls: seq<Call>)
    ensures GetSkills(s) <= GetSkills(Run(s, calls))
    ensures GetProjects(s) <= GetProjects(Run(s, calls))
    ensures GetGoals(s) <= GetGoals(Run(s, calls))
  {
    RunExtends(s, calls);
  }
}

=== FILE: text.dfy ===
/**
 String operations the portfolio uses, with their JavaScript meaning:
 `String.prototype.split` on a one-character separator, `Array.prototype.join`,
 `String.prototype.trim`, and the decimal rendering a number gets when it is
 joined into a string.
 */
module Text {

  /** Number of occurrences of `c` in `s`. */
  function Count(s: string, c: char): (n: nat)
    ensures n <= |s|
  {
    if |s| == 0 then 0 else (if s[0] == c then 1 else 0) + Count(s[1..], c)
  }

  /** `s.split(c)`: the runs of `s` between separators, empty runs included. */
  function Split(s: string, c: char): (parts: seq<string>)
    ensures |parts| >= 1
  {
    if |s| == 0 then [""]
    else
      var rest := Split(s[1..], c);
      if s[0] == c then [""] + rest
      else [[s[0]] + rest[0]] + rest[1..]
  }

  /** `parts.join(c)`: the parts with one separator between neighbours. */
  function Join(parts: seq<string>, c: char): string
  {
    if |parts| == 0 then ""
    else if |parts| == 1 then parts[0]
    else parts[0] + [c] + Join(parts[1..], c)
  }

  /** Joining parts free of `c` puts exactly one `c` between neighbours and none elsewhere. */
  lemma {:induction false} JoinSeparators(parts: seq<string>, c: char)
    requires |parts| >= 1
    requires forall i :: 0 <= i < |parts| ==> c !in parts[i]
    ensures Count(Join(parts, c), c) == |parts| - 1
  {
    CountAbsent(parts[0], c);
    if |parts| > 1 {
      JoinSeparators(parts[1..], c);
      CountAppend(parts[0], [c], c);
      CountAppend(parts[0] + [c], Join(parts[1..], c), c);
      assert [c][1..] == [];
    }
  }

  lemma {:induction false} CountAppend(a: string, b: string, c: char)
    ensures Count(a + b, c) == Count(a, c) + Count(b, c)
  {
    if |a| == 0 {
      assert a + b == b;
    } else {
      assert (a + b)[1..] == a[1..] + b;
      CountAppend(a[1..], b, c);
    }
  }

  lemma {:induction false} CountAbsent(s: string, c: char)
    ensures c !in s ==> Count(s, c) == 0
  {
    if |s| > 0 {
      CountAbsent(s[1..], c);
    }
  }

  /** Splitting yields exactly one more piece than there are separators. */
  lemma {:induction false} SplitCount(s: string, c: char)
    ensures |Split(s, c)| == Count(s, c) + 1
  {
    if |s| > 0 {
      SplitCount(s[1..], c);
    }
  }

  /** No piece of a split contains the separator. */
  lemma {:induction false} SplitPiecesFree(s: string, c: char)
    ensures forall i :: 0 <= i < |Split(s, c)| ==> c !in Split(s, c)[i]
  {
    if |s| > 0 {
      SplitPiecesFree(s[1..], c);
      var rest := Split(s[1..], c);
      if s[0] != c {
        assert c !in rest[0];
        assert c !in [s[0]] + rest[0];
      }
    }
  }

  /** Rejoining the pieces with the separator gives back the original string. */
  lemma {:induction false} JoinSplit(s: string, c: char)
    ensures Join(Split(s, c), c) == s
  {
    if |s| > 0 {
      JoinSplit(s[1..], c);
      var rest := Split(s[1..], c);
      if s[0] == c {
        assert ([""] + rest)[1..] == rest;
        assert s == [c] + s[1..];
      } else {
        var parts := [[s[0]] + rest[0]] + rest[1..];
        assert parts[1..] == rest[1..];
        if |rest| > 1 {
          assert Join(rest, c) == rest[0] + [c] + Join(rest[1..], c);
          assert s == [s[0]] + s[1..];
        } else {
          assert s == [s[0]] + s[1..];
        }
      }
    }
  }

  /** Splitting a separator-free prefix glued to `t` puts the prefix in front of `t`'s first piece. */
  lemma {:induction false} SplitFreePrefix(p: string, t: string, c: char)
    requires c !in p
    ensures Split(p + t, c) == [p + Split(t, c)[0]] + Split(t, c)[1..]
  {
    if |p| > 0 {
      SplitFreePrefix(p[1..], t, c);
      assert (p + t)[1..] == p[1..] + t;
      assert (p + t)[0] == p[0];
      assert [p[0]] + (p[1..] + Split(t, c)[0]) == p + Split(t, c)[0];
    } else {
      var pieces := Split(t, c);
      assert p + t == t;
      assert p + pieces[0] == pieces[0];
      assert pieces == [pieces[0]] + pieces[1..];
    }
  }

  /** Joining separator-free pieces and splitting again gives back the pieces. */
  lemma {:induction false} SplitJoin(parts: seq<string>, c: char)
    requires |parts| >= 1
    requires forall i :: 0 <= i < |parts| ==> c !in parts[i]
    ensures Split(Join(parts, c), c) == parts
  {
    if |parts| == 1 {
      SplitFreePrefix(parts[0], "", c);
      assert parts[0] + "" == parts[0];
    } else {
      SplitJoin(parts[1..], c);
      var tail := [c] + Join(parts[1..], c);
      SplitFreePrefix(parts[0], tail, c);
      assert tail[0] == c;
      assert tail[1..] == Join(parts[1..], c);
      assert Split(tail, c) == [""] + parts[1..];
      assert Split(tail, c)[0] == "";
      assert Split(tail, c)[1..] == parts[1..];
      assert parts[0] + "" == parts[0];
      assert Join(parts, c) == parts[0] + tail;
      assert parts == [parts[0]] + parts[1..];
    }
  }

  /**
   The code points ECMAScript counts as WhiteSpace or LineTerminator, which is
   exactly what `String.prototype.trim` strips: tab, line feed, vertical tab,
   form feed, carriage return, the byte order mark, line and paragraph
   separators, and every space separator (general category Zs) as Unicode 15.1
   lists them, a set unchanged since Unicode 6.3.
   */
  predicate IsJsSpace(ch: char)
  {
    || ch == '\t' || ch == '\n' || ch == '\U{000B}' || ch == '\U{000C}' || ch == '\r'
    || ch == ' ' || ch == '\U{00A0}' || ch == '\U{1680}'
    || ('\U{2000}' <= ch <= '\U{200A}')
    || ch == '\U{2028}' || ch == '\U{2029}' || ch == '\U{202F}' || ch == '\U{205F}'
    || ch == '\U{3000}' || ch == '\U{FEFF}'
  }

  predicate AllSpace(s: string)
  {
    forall k :: 0 <= k < |s| ==> IsJsSpace(s[k])
  }

  /** Length of the run of space characters at the start of `s`. */
  function LeadingSpace(s: string): (n: nat)
    ensures n <= |s|
    ensures forall k :: 0 <= k < n ==> IsJsSpace(s[k])
    ensures n < |s| ==> !IsJsSpace(s[n])
  {
    if |s| == 0 || !IsJsSpace(s[0]) then 0 else 1 + LeadingSpace(s[1..])
  }

  /** Length of the run of space characters at the end of `s`. */
  function TrailingSpace(s: string): (n: nat)
    ensures n <= |s|
    ensures forall k :: |s| - n <= k < |s| ==> IsJsSpace(s[k])
    ensures n < |s| ==> !IsJsSpace(s[|s| - 1 - n])
  {
    if |s| == 0 || !IsJsSpace(s[|s| - 1]) then 0 else 1 + TrailingSpace(s[..|s| - 1])
  }

  /**
   `s.trim()`: the middle of `s` once the leading and trailing runs of space
   characters are cut off. The result neither starts nor ends with a space
   character, and everything removed was one.
   */
  function Trim(s: string): (r: string)
    ensures exists i :: 0 <= i <= |s| - |r| && r == s[i..i + |r|] && AllSpace(s[..i]) && AllSpace(s[i + |r|..])
    ensures |r| > 0 ==> !IsJsSpace(r[0]) && !IsJsSpace(r[|r| - 1])
  {
    var i := LeadingSpace(s);
    var j := TrailingSpace(s[i..]);
    TrimCut(s, i, j);
    s[i..|s| - j]
  }

  /** Cutting the leading run, then the trailing run of what is left, removes only space characters. */
  lemma TrimCut(s: string, i: nat, j: nat)
    requires i == LeadingSpace(s) && j == TrailingSpace(s[i..])
    ensures i <= |s| - j
    ensures AllSpace(s[..i]) && AllSpace(s[|s| - j..])
    ensures i < |s| - j ==> !IsJsSpace(s[i]) && !IsJsSpace(s[|s| - j - 1])
  {
    LeadingRun(s);
    TrailingRun(s, i);
    if i < |s| - j {
      TrailingStop(s, i);
    }
  }

  /** The character just before the trailing run of a suffix `s[i..]` is not a space character. */
  lemma TrailingStop(s: string, i: nat)
    requires i <= |s| && TrailingSpace(s[i..]) < |s| - i
    ensures !IsJsSpace(s[|s| - TrailingSpace(s[i..]) - 1])
  {
    var t := s[i..];
    var last := t[|t| - 1 - TrailingSpace(t)];
    assert last == s[|s| - TrailingSpace(t) - 1];
    assert !IsJsSpace(last);
  }

  lemma LeadingRun(s: string)
    ensures AllSpace(s[..LeadingSpace(s)])
  {
    var head := s[..LeadingSpace(s)];
    forall k | 0 <= k < |head|
      ensures IsJsSpace(head[k])
    {
      assert head[k] == s[k];
    }
  }

  /** The trailing run of a suffix `s[i..]` is a run of space characters at the end of `s`. */
  lemma TrailingRun(s: string, i: nat)
    requires i <= |s|
    ensures AllSpace(s[|s| - TrailingSpace(s[i..])..])
  {
    var t := s[i..];
    var n := TrailingSpace(t);
    var tail := s[|s| - n..];
    forall k | 0 <= k < |tail|
      ensures IsJsSpace(tail[k])
    {
      assert tail[k] == t[|t| - n + k];
    }
  }

  /** A string that neither starts nor ends with a space character trims to itself. */
  lemma TrimClean(s: string)
    requires |s| > 0 ==> !IsJsSpace(s[0]) && !IsJsSpace(s[|s| - 1])
    ensures Trim(s) == s
  {
    assert LeadingSpace(s) == 0;
    assert TrailingSpace(s) == 0;
    assert s[0..] == s;
  }

  /** One space character in front of a clean word is trimmed away. */
  lemma TrimSpacedWord(ch: char, w: string)
    requires IsJsSpace(ch)
    requires |w| > 0 && !IsJsSpace(w[0]) && !IsJsSpace(w[|w| - 1])
    ensures Trim([ch] + w) == w
  {
    var t := [ch] + w;
    assert t[1..] == w;
    assert LeadingSpace(w) == 0;
    assert LeadingSpace(t) == 1;
    assert TrailingSpace(w) == 0;
  }

  /** Trimming only removes characters, so a character absent from `s` is absent from `s.trim()`. */
  lemma TrimKeepsOut(s: string, c: char)
    requires c !in s
    ensures c !in Trim(s)
  {
    var r := Trim(s);
    var i :| 0 <= i <= |s| - |r| && r == s[i..i + |r|] && AllSpace(s[..i]) && AllSpace(s[i + |r|..]);
    assert forall k :: 0 <= k < |r| ==> r[k] == s[i + k];
  }

  /** The character for one decimal digit. */
  function DigitChar(d: nat): (ch: char)
    requires d < 10
  {
    (48 + d) as char
  }

  predicate IsDigit(ch: char)
  {
    '0' as int <= ch as int <= '9' as int
  }

  /** The decimal text JavaScript gives a non-negative integer: no sign, no leading zeros. */
  function Decimal(n: nat): (r: string)
    ensures |r| >= 1
    ensures forall k :: 0 <= k < |r| ==> IsDigit(r[k])
    ensures |r| > 1 ==> r[0] != '0'
  {
    if n < 10 then [DigitChar(n)] else Decimal(n / 10) + [DigitChar(n % 10)]
  }

  /** The number a string of decimal digits denotes. */
  function DecimalValue(s: string): nat
    requires forall k :: 0 <= k < |s| ==> IsDigit(s[k])
  {
    if |s| == 0 then 0
    else
      var last := s[|s| - 1];
      assert IsDigit(last);
      10 * DecimalValue(s[..|s| - 1]) + (last as int - '0' as int)
  }

  /** Reading back the decimal text of `n` gives `n`. */
  lemma {:induction false} DecimalRoundTrip(n: nat)
    ensures DecimalValue(Decimal(n)) == n
  {
    if n >= 10 {
      DecimalRoundTrip(n / 10);
      var r := Decimal(n);
      assert r[..|r| - 1] == Decimal(n / 10);
    }
  }
}
